=== FILE: README.md ===
# lambda_project: project creation, modelled in Dafny

This project models the core of `lambda_function.py`, an AWS Lambda that creates "projects". A project is a record of one website's analysis, stored in a DynamoDB table keyed by `(user_id, project_id)`. The model covers the following:

- **URL and payload validation**: `validate_url` and `validate_scraped_data`.
- **The health score**: `calculate_health_score` turns scraped data into an integer in [0, 100].
- **Identifiers**: `generate_project_id` produces `project_` plus 12 hex digits of a UUID.
- **Record assembly and the write**: `create_project` builds the record and calls `put_item`.
- **The duplicate check**: `check_duplicate_project` queries the user's partition, filters by URL and fails open.
- **The handler's dispatch**: `lambda_handler` applies defaults, then runs four 400 checks, the 409 duplicate check, the creation (201), and its catch-all 500.

The module layout follows the program:

| file | module | models |
|---|---|---|
| `wrappers.dfy` | `Wrappers` | `Option` and `Result` |
| `json.dfy` | `Json` | JSON values as Python sees them: truthiness, `dict.get`, `>` against an int, and the `in` operator on a dict, a list or a str |
| `validation.dfy` | `Validation` | `validate_url`, `validate_scraped_data` |
| `health.dfy` | `Health` | `calculate_health_score` |
| `health_properties.dfy` | `HealthProperties` | what each score term contributes |
| `store.dfy` | `Store` | the table, `put_item`, the query and `check_duplicate_project` |
| `projects.dfy` | `Projects` | `generate_project_id`, `create_project` |
| `handler.dfy` | `Handler` | the body of `lambda_handler` after the event is decoded |
| `handler_properties.dfy` | `HandlerProperties` | properties of the handler across calls |
| `handler_examples.dfy` | `HandlerExamples` | the end-to-end, isolation and rejection scenarios on concrete bodies |

Python's dynamic typing is modelled explicitly, because it decides which requests fail:

- A `> 1000` on a string raises `TypeError`; `True` counts as 1.
- `.get` on a non-dict raises `AttributeError`.
- `field in data` raises on an int or a bool, and tests for a substring on a str.

These raised exceptions are `Json.PyError`. The handler's catch-all turns them into the 500 reply `Failed`.

The inputs the code draws from the environment are parameters of the model:

- the 32-digit hex of `uuid.uuid4()`: `Env.uuidHex`;
- the `datetime.utcnow().isoformat()` string: `Env.clock`;
- whether the DynamoDB query raises: `Env.queryFails`;
- whether `put_item` raises: `Env.putFails`;
- `urlparse`, as a function from a string to its `(scheme, netloc)` or `None` when it raises: `Validation.UrlParser`.

Some of the code's behaviour differs from what a reader might expect of a project-creation service. The model follows the code:

- **The score calculator can raise.** A non-numeric `content_length` or `links_count`, or a non-dict `framework_detection`, raises, and the request ends in a 500 (`HealthProperties.ScoreDefinedIff`).
- **Any URL scheme is accepted, not only `http` and `https`.** The URL check wants a non-empty scheme and netloc only, so `ftp` passes (`Validation.AnySchemeAccepted`).
- **The SSL and status terms read the payload.** The SSL term reads `has_ssl` rather than the URL's scheme, and the status term tests `status_code == 200` exactly, not any 2xx code.
- **There is no index by URL.** The duplicate check queries the user's partition and filters it by `website_url`.
- **The duplicate check fails open.** When the query raises, the check reports "no duplicate" and creation goes on (`HandlerProperties.FailedQueryAdmitsDuplicate`).
- **The write is unconditional.** `put_item` has no condition and overwrites whatever is stored under the key, and nothing is retried (`HandlerProperties.IdCollisionOverwrites`).

## Model

| member | source | states |
|---|---|---|
| Json.GreaterThan | lambda_function.py:54-57 | `x > bound` is defined exactly when `x` is a number or a bool (a bool counts as 0 or 1), and then it compares that number; on anything else it raises `TypeError` |
| Json.IsSubstringIff | lambda_function.py:42 | `in` on two strings holds exactly when the needle occurs at some position of the haystack |
| Json.Contains | lambda_function.py:42 | `item in container` tests the keys of a dict, the elements of a list, or substrings of a str, and raises exactly on `None`, an int or a bool |
| Validation.ValidateUrl | lambda_function.py:31-37 | a URL is valid exactly when it is a string that `urlparse` accepts with both a non-empty scheme and a non-empty netloc; a non-string URL is invalid, because the bare `except` catches the error |
| Validation.AnySchemeAccepted | lambda_function.py:35 | no scheme is privileged: an `ftp` URL with a host is valid |
| Validation.ValidateScrapedData | lambda_function.py:39-42 | the payload is valid exactly when `url`, `title` and `content` are all `in` it; for a dict, exactly when the three keys are present, whatever their values; it raises exactly on `None`, an int or a bool |
| Validation.AllContained | lambda_function.py:42 | `all(...)` over the required fields short-circuits: it raises exactly when the first membership test raises, and otherwise holds exactly when every field is contained |
| Validation.ValidScrapedDataIgnoresValues | lambda_function.py:39-42 | a dict with the three keys is valid even when their values are empty or `None` |
| Health.TieredBonus | lambda_function.py:53-57 | a two-tier term is worth `big` above the high threshold, `small` above only the low one, and 0 otherwise; it raises exactly when the value is not a number |
| Health.BonusFor | lambda_function.py:46-79 | each term's contribution never exceeds its cap (20, 20, 15, 10, 15, 10, 10) |
| Health.SumBonuses | lambda_function.py:46-79 | adding up the terms in source order succeeds exactly when every term succeeds, and otherwise raises the error of the first failing term |
| Health.SumWithinCaps | lambda_function.py:46-79 | a sum of terms, each within its cap, stays within the sum of the caps |
| Health.CapsAddUpToHundred | lambda_function.py:81 | the caps add up to exactly 100, so `min(score, 100)` never lowers a score |
| Health.CalculateHealthScore | lambda_function.py:44-81 | the score is defined exactly when the data is a dict and every term is defined; it then equals the sum of the seven terms and lies in [0, 100] |
| HealthProperties.SumOfValues | lambda_function.py:46-79 | when every term succeeds, the sum equals the plain sum of their values |
| HealthProperties.SumOfZeros | lambda_function.py:46-79 | when every term contributes 0, the sum of the terms is 0 |
| HealthProperties.SumBonusesReplace | lambda_function.py:46-79 | changing one term from 0 to some value adds exactly that value to the sum |
| HealthProperties.Index | lambda_function.py:46-79 | each term is read once, at one fixed position of the order |
| HealthProperties.MissingFieldContributesNothing | lambda_function.py:49-79 | a term whose key is absent reads its default and contributes 0 |
| HealthProperties.KeysDistinct | lambda_function.py:49-77 | the seven terms read seven different keys |
| HealthProperties.UpdateAgreesElsewhere | lambda_function.py:49-77 | setting one term's key changes no other term's contribution |
| HealthProperties.SumAfterUpdate | lambda_function.py:46-79 | setting one term's key to a value adds that value's contribution to the sum of the others |
| HealthProperties.TermContribution | lambda_function.py:46-81 | the score of a dict is the score without a term's key plus that term's contribution on its value; the terms add up independently |
| HealthProperties.ContentTiers | lambda_function.py:53-57 | `content_length` adds 20 above 1000, 10 above 500 up to 1000, and 0 otherwise |
| HealthProperties.LinksTiers | lambda_function.py:66-70 | `links_count` adds 15 above 10, 10 above 5 up to 10, and 0 otherwise |
| HealthProperties.FrameworkBonusIff | lambda_function.py:76-79 | a `framework_detection` dict adds 10 to the score when `react`, `vue` or `angular` in it is truthy, and 0 otherwise |
| HealthProperties.NoRecognisedKeyNoBonus | lambda_function.py:49-79 | a dict with none of the seven keys earns no term |
| HealthProperties.UnrecognisedDocScoresZero | lambda_function.py:44-81 | a dict with none of the seven keys, the empty dict included, scores 0 |
| HealthProperties.UnrecognisedKeyReadByNoTerm | lambda_function.py:49-77 | a key outside the seven is read by no term |
| HealthProperties.UnrecognisedKeyIgnored | lambda_function.py:44-81 | adding or changing a key outside the seven leaves the score unchanged |
| HealthProperties.BonusDefinedIff | lambda_function.py:53-79 | a term raises exactly when it is `content_length` or `links_count` holding a non-number, or `framework_detection` holding a non-dict |
| HealthProperties.ScoreDefinedIff | lambda_function.py:44-81 | the score is defined exactly when the data is a dict, `content_length` and `links_count` are numbers when present, and `framework_detection` is a dict when present |
| HealthProperties.FullBonusIff | lambda_function.py:49-79 | a term earns its full bonus exactly when its key is present and its value passes the source's test: status 200, content above 1000, a truthy title, description or `has_ssl`, links above 10, a framework dict with a truthy modern framework |
| HealthProperties.SumMonotone | lambda_function.py:46-79 | a sum of terms each at most its cap is at most the sum of the caps |
| HealthProperties.SumAtCaps | lambda_function.py:46-81 | terms each at most their cap whose sum equals the caps' sum are all at their caps |
| HealthProperties.PerfectScoreIfEveryCondition | lambda_function.py:44-81 | every dict that meets all seven conditions scores exactly 100 |
| HealthProperties.EveryConditionIfPerfectScore | lambda_function.py:44-81 | a dict that scores 100 meets all seven conditions |
| HealthProperties.PerfectScoreIff | lambda_function.py:44-81 | the score is 100 exactly when the data is a dict that meets all seven conditions |
| Store.PutItem | lambda_function.py:112 | `put_item` stores the item under its `(user_id, project_id)` key, replacing any item there, and changes no other key |
| Store.QueryUserUrl | lambda_function.py:119-127 | the query returns exactly the user's items whose `website_url` equals the URL |
| Store.CheckDuplicateProject | lambda_function.py:116-131 | a duplicate is reported exactly when the query succeeds and the user already has an item for the URL; a failing query reports none |
| Store.PutKeepsUnique | lambda_function.py:112 | writing an item whose user does not yet record its URL keeps every user's URLs unique |
| Store.PutKeepsWellKeyed | lambda_function.py:112 | every item stays stored under its own key |
| Store.PutLeavesOtherUsers | lambda_function.py:112 | a write for one user changes no other user's duplicate answer |
| Projects.PrefixUpTo | lambda_function.py:85 | `s[:n]` is the prefix of `s` of length `n`, or `s` itself when `s` is shorter |
| Projects.GenerateProjectId | lambda_function.py:83-85 | the identifier starts with `project_`, continues with a prefix of the UUID hex, and is 20 characters long when the hex has at least 12 |
| Projects.GeneratedIdShape | lambda_function.py:85 | for a UUID's 32 lower-case hex digits, the identifier is 20 characters long, its last 12 are lower-case hex, and they are the first 12 of the UUID |
| Projects.GeneratedIdInjective | lambda_function.py:85 | two UUIDs give the same identifier exactly when their first 12 hex digits agree |
| Projects.CreateProject | lambda_function.py:87-114 | creation succeeds exactly when the score is defined and the write succeeds. A score error is raised as is, and a failing write gives `WriteFailed`. The record holds the copied inputs, status `active`, the title from the scraped data (falling back to the URL), the computed score in [0, 100], and three equal timestamps. The table afterwards is the old table plus that one `put_item` |
| Handler.ExtractRequest | lambda_function.py:153-159 | each field is taken from the body when present; otherwise `websiteUrl` and `scrapedData` are `None`, and `category`, `description` and `userId` are `General`, the empty string and `default_user` |
| Handler.FirstRejection | lambda_function.py:161-186 | the four checks run in order and stop at the first failure: `websiteUrl` missing or falsy; else `scrapedData` missing or falsy; else an invalid URL; else scraped data that lacks a required field. A payload whose structure check raises is not rejected here |
| Handler.Handle | lambda_function.py:152-203 | the four 400 checks run in source order and the first failing one decides the reply; 409 exactly when every check passes, the duplicate query does not raise, and the user already records the URL; every reply but 201 leaves the table unchanged; a 201 holds the assembled record, and the table gains exactly that write |
| HandlerProperties.CreatedIff | lambda_function.py:152-203 | a 201 is returned exactly when the body is a dict, every check passes, no duplicate is reported, the score is defined and the write succeeds |
| HandlerProperties.SecondCreateConflicts | lambda_function.py:188-193 | repeating a successful creation, with a working query, returns 409 and leaves the table as the first call left it |
| HandlerProperties.ReplyReadsOnlyDuplicateCheck | lambda_function.py:152-203 | the table enters the reply only through the duplicate check |
| HandlerProperties.OtherUsersUnaffected | lambda_function.py:112-131 | a write for one user, such as the one a 201 makes, changes no reply for any other user |
| HandlerProperties.HandleKeepsUnique | lambda_function.py:188-196 | while the query works, no call puts a second item with the same URL into one user's partition |
| HandlerProperties.FailedQueryAdmitsDuplicate | lambda_function.py:129-131 | a creation for a URL the user already records, under a fresh key, can only happen when the query failed, and it leaves two distinct items of that user for that URL |
| HandlerProperties.IdCollisionOverwrites | lambda_function.py:112 | a creation whose identifier is already taken replaces the stored item and adds no key |
| HandlerProperties.RejectionIsStable | lambda_function.py:161-186 | a 400 depends on neither the environment nor the table, and writes nothing |
| HandlerExamples.ExampleScrapedScore | lambda_function.py:44-81 | the example payload with only `url`, `title` and `content` scores 15, from its title alone |
| HandlerExamples.ExampleScrapedValid | lambda_function.py:39-42 | the example payload passes the structure check |
| HandlerExamples.EndToEndCreation | lambda_function.py:152-203 | creating `https://example.com` with a minimal payload returns 201 and `success`, with status `active`, score 15, user `default_user`, category `General`, an empty description and title `Example` |
| HandlerExamples.MissingWebsiteUrlRejected | lambda_function.py:162-166 | a body without `websiteUrl` gets 400 "websiteUrl is required" and writes nothing |
| HandlerExamples.MalformedUrlRejected | lambda_function.py:175-179 | a URL without a scheme or host gets 400 "Invalid website URL format" and writes nothing |
| HandlerExamples.TwoUsersSameUrl | lambda_function.py:116-131 | two users can each create a project for the same URL |

## Left out

- The DynamoDB client setup and `TABLE_NAME` (lambda_function.py:10-13) are left out: the table is a parameter.
- `create_response` and the CORS headers (lambda_function.py:15-29) are left out. Only the `success` flag and the status code are modelled (`Handler.Success`, `Handler.StatusCode`), because the wrapping adds nothing to the logic. The status code is the one an API Gateway event receives; a direct invocation gets the bare body dict, with no status code (lambda_function.py:28-29).
- Event decoding is left out (lambda_function.py:137-150). This covers the API Gateway `body` detection, `json.loads` and its "Invalid JSON" 400. The model starts from the decoded body.
- The 500 reply's message text, `str(e)`, is left out: `Failed` carries the kind of error, not its rendering.
- `urlparse` internals are left out. It is a parameter returning the scheme and netloc, or `None` when it raises.
- `uuid.uuid4()` and `datetime.utcnow()` are left out: they are inputs, `Env.uuidHex` and `Env.clock`.
- The failures of `table.query` and `table.put_item` are reduced to the booleans `Env.queryFails` and `Env.putFails`; their causes are not modelled. In particular they do not depend on the request: DynamoDB rejects an empty or `null` `userId` as a key value, so such a request, once it passes the four checks, ends in a 500 (the query fails open, then `put_item` raises), while the model allows a 201 for it.
- `print` logging is left out.
- Floating-point JSON numbers are left out: numbers are integers. A float `content_length` or `status_code` is not modelled.
- Store.QueryUserUrl: a DynamoDB query reads one page of at most 1 MB before applying the filter, and the code does not follow `LastEvaluatedKey`. The model returns every match, so a user whose partition spans more than one page can be reported as having no duplicate in the code but not in the model. The query also passes no `ConsistentRead=True`, so DynamoDB serves an eventually consistent read that can miss an item written just before; the model's query always reads the current table. `HandlerProperties.SecondCreateConflicts` and `HandlerProperties.HandleKeepsUnique` rely on reads being consistent, and so hold only for queries that see every earlier write.
- Store.PutItem: a `put_item` that raises is taken to have written nothing, so `Handler.Handle` keeps the old table on `WriteFailed`. A client-side timeout after the write has landed breaks this assumption: the item is stored but the reply is a 500.
- Concurrency is left out. Two invocations for the same user and URL can both pass the duplicate check before either writes. The model is sequential, and `HandlerProperties.FailedQueryAdmitsDuplicate` shows the one sequential path to a duplicate.

=== FILE: handler.dfy ===
/**
 * The validation and dispatch body of `lambda_handler`: defaults are applied,
 * then five checks run in a fixed order and the first failing one decides the
 * reply; only a request that passes them all reaches `create_project`.
 */
module Handler {
  import opened Wrappers
  import opened Json
  import opened Validation
  import opened Health
  import opened Store
  import opened Projects

  /** The fields `lambda_handler` pulls out of the body, defaults applied. */
  datatype Request = Request(
    websiteUrl: Value,
    category: Value,
    description: Value,
    scrapedData: Value,
    userId: Value)

  const DefaultCategory: Value := Str("General")
  const DefaultDescription: Value := Str("")
  const DefaultUserId: Value := Str("default_user")

  /**
   * The `body.get(...)` calls: a missing `websiteUrl` or `scrapedData` reads as
   * `None`; a missing `category`, `description` or `userId` takes its default.
   * A key that is present is taken as is, whatever its type, even `None`.
   */
  function ExtractRequest(body: map<string, Value>): (req: Request)
    ensures "websiteUrl" in body ==> req.websiteUrl == body["websiteUrl"]
    ensures "websiteUrl" !in body ==> req.websiteUrl == Null
    ensures "scrapedData" in body ==> req.scrapedData == body["scrapedData"]
    ensures "scrapedData" !in body ==> req.scrapedData == Null
    ensures "category" in body ==> req.category == body["category"]
    ensures "category" !in body ==> req.category == Str("General")
    ensures "description" in body ==> req.description == body["description"]
    ensures "description" !in body ==> req.description == Str("")
    ensures "userId" in body ==> req.userId == body["userId"]
    ensures "userId" !in body ==> req.userId == Str("default_user")
  {
    Request(
      websiteUrl := Get(body, "websiteUrl", Null),
      category := Get(body, "category", DefaultCategory),
      description := Get(body, "description", DefaultDescription),
      scrapedData := Get(body, "scrapedData", Null),
      userId := Get(body, "userId", DefaultUserId))
  }

  /** The four 400 rejections, in the order the handler checks them. */
  datatype Rejection = MissingWebsiteUrl | MissingScrapedData | InvalidWebsiteUrl | InvalidScrapedData

  function ErrorMessage(reason: Rejection): string {
    match reason
    case MissingWebsiteUrl => "websiteUrl is required"
    case MissingScrapedData => "scrapedData is required"
    case InvalidWebsiteUrl => "Invalid website URL format"
    case InvalidScrapedData => "Invalid scraped data structure"
  }

  /** What the handler answers, before `create_response` wraps it. */
  datatype Reply =
    | Rejected(reason: Rejection)  // 400
    | Duplicate                    // 409
    | Created(project: Project)    // 201
    | Failed(fault: Fault)         // 500, from the catch-all handler

  function StatusCode(reply: Reply): int {
    match reply
    case Rejected(_) => 400
    case Duplicate => 409
    case Created(_) => 201
    case Failed(_) => 500
  }

  /** The `success` flag of the response body. */
  predicate Success(reply: Reply) {
    reply.Created?
  }

  /** A reply and the table it leaves behind. */
  datatype Outcome = Outcome(reply: Reply, table: Table)

  /** The first validation check a request fails, or `None` when it passes all four. */
  function FirstRejection(parse: UrlParser, req: Request): (r: Option<Rejection>)
    ensures r == Some(MissingWebsiteUrl) <==> !Truthy(req.websiteUrl)
    ensures r == Some(MissingScrapedData) <==> Truthy(req.websiteUrl) && !Truthy(req.scrapedData)
    ensures r == Some(InvalidWebsiteUrl) <==>
              Truthy(req.websiteUrl) && Truthy(req.scrapedData) && !ValidateUrl(parse, req.websiteUrl)
    ensures r == Some(InvalidScrapedData) <==>
              && Truthy(req.websiteUrl) && Truthy(req.scrapedData) && ValidateUrl(parse, req.websiteUrl)
              && ValidateScrapedData(req.scrapedData) == Ok(false)
  {
    if !Truthy(req.websiteUrl) then Some(MissingWebsiteUrl)
    else if !Truthy(req.scrapedData) then Some(MissingScrapedData)
    else if !ValidateUrl(parse, req.websiteUrl) then Some(InvalidWebsiteUrl)
    else if ValidateScrapedData(req.scrapedData) == Ok(false) then Some(InvalidScrapedData)
    else None
  }

  /**
   * `lambda_handler` on a decoded body. A body that is not a dict raises on
   * its first `.get`; `validate_scraped_data` raises on an int or a bool.
   */
  function Handle(parse: UrlParser, env: Env, body: Value, table: Table): (out: Outcome)
    // Every reply but 201 leaves the table as it was.
    ensures !out.reply.Created? ==> out.table == table
    // A body that is not a dict fails before any check.
    ensures !body.Obj? ==> out.reply.Failed?
    // The checks run in order and the first failing one decides the 400.
    ensures out.reply.Rejected? <==>
              body.Obj? && FirstRejection(parse, ExtractRequest(body.fields)).Some?
    ensures out.reply.Rejected? ==>
              out.reply.reason == FirstRejection(parse, ExtractRequest(body.fields)).value
    // 409 iff the request passes every check and its user already records the URL.
    ensures out.reply.Duplicate? <==>
              && body.Obj?
              && var req := ExtractRequest(body.fields);
              && FirstRejection(parse, req).None?
              && ValidateScrapedData(req.scrapedData) == Ok(true)
              && !env.queryFails
              && HasProject(table, req.userId, req.websiteUrl)
    // A created project is the assembled record, and it is the one change to the table.
    ensures out.reply.Created? ==>
              && body.Obj?
              && var req := ExtractRequest(body.fields);
              && var p := out.reply.project;
              && FirstRejection(parse, req).None?
              && ValidateScrapedData(req.scrapedData) == Ok(true)
              && !(HasProject(table, req.userId, req.websiteUrl) && !env.queryFails)
              && req.scrapedData.Obj? && p.title == req.scrapedData.fields["title"]
              && p.userId == req.userId && p.websiteUrl == req.websiteUrl
              && p.category == req.category && p.description == req.description
              && p.scrapedData == req.scrapedData
              && p.status == "active"
              && p.createdAt == p.updatedAt == p.lastChecked == Timestamp(env)
              && CalculateHealthScore(req.scrapedData) == Ok(p.healthScore)
              && p.projectId == GenerateProjectId(env.uuidHex)
              && out.table == PutItem(table, p)
  {
    match body
    case Obj(fields) =>
      var req := ExtractRequest(fields);
      (match FirstRejection(parse, req)
      case Some(reason) => Outcome(Rejected(reason), table)
      case None =>
        match ValidateScrapedData(req.scrapedData)
        case Err(e) => Outcome(Failed(Raised(e)), table)
        case Ok(_) =>
          if CheckDuplicateProject(table, req.userId, req.websiteUrl, env.queryFails) then
            Outcome(Duplicate, table)
          else
            match CreateProject(env, table, req.userId, req.websiteUrl, req.category,
                                req.description, req.scrapedData)
            case Err(fault) => Outcome(Failed(fault), table)
            case Ok((project, table')) => Outcome(Created(project), table'))
    case _ => Outcome(Failed(Raised(AttributeError("get"))), table)
  }
}

=== FILE: handler_examples.dfy ===
/**
 * Concrete requests run through the model: the end-to-end creation with all
 * defaults, the two 400 cases for the URL, and two users registering the same
 * website.
 */
module HandlerExamples {
  import opened Wrappers
  import opened Json
  import opened Validation
  import opened Health
  import opened HealthProperties
  import opened Store
  import opened Projects
  import opened Handler
  import opened HandlerProperties

  const ExampleUrl: string := "https://example.com"

  lemma ExampleUrlLength()
    ensures |ExampleUrl| == 19
  {
  }

  /** The minimal valid analysis payload: url, title and content only. */
  const ExampleScraped: Value :=
    Obj(map["url" := Str(ExampleUrl), "title" := Str("Example"), "content" := Str("hello")])

  function ExampleBody(): Value {
    Obj(map["websiteUrl" := Str(ExampleUrl), "scrapedData" := ExampleScraped])
  }

  /** The example payload earns nothing but the title bonus. */
  lemma ExampleBonuses(t: Term)
    ensures Bonus(t, ExampleScraped.fields) == if t == Title then Ok(15) else Ok(0)
  {
    var m := ExampleScraped.fields;
    assert m.Keys == {"url", "title", "content"};
    if t == Title {
      assert m["title"] == Str("Example") && |"Example"| == 7;
    } else {
      assert KeyOf(t) !in m;
    }
  }

  /** A payload with only the title among the scored fields scores 15. */
  lemma ExampleScrapedScore()
    ensures CalculateHealthScore(ExampleScraped) == Ok(15)
  {
    var bs := Bonuses(ExampleScraped.fields);
    var zeros: seq<Result<nat, PyError>> := seq(|Terms|, i => Ok(0));
    forall i | 0 <= i < |Terms| && i != Index(Title)
      ensures bs[i] == zeros[i]
    {
      ExampleBonuses(Terms[i]);
    }
    ExampleBonuses(Title);
    SumOfZeros(zeros);
    SumBonusesReplace(bs, zeros, Index(Title));
  }

  /** The example payload is a non-empty dict with the three required keys. */
  lemma ExampleScrapedValid()
    ensures Truthy(ExampleScraped)
    ensures ValidateScrapedData(ExampleScraped) == Ok(true)
  {
    assert "url" in ExampleScraped.fields;
    assert "title" in ExampleScraped.fields && "content" in ExampleScraped.fields;
  }

  /** A request carrying the example URL and payload passes all four checks. */
  lemma ExamplePassesChecks(parse: UrlParser, req: Request)
    requires parse(ExampleUrl) == Some(UrlParts("https", "example.com"))
    requires req.websiteUrl == Str(ExampleUrl) && req.scrapedData == ExampleScraped
    ensures FirstRejection(parse, req).None?
    ensures ValidateScrapedData(req.scrapedData) == Ok(true)
  {
    ExampleUrlLength();
    ExampleScrapedValid();
  }

  /** The end-to-end creation: 201, an active record, every default applied. */
  lemma EndToEndCreation(parse: UrlParser, env: Env, table: Table)
    requires parse(ExampleUrl) == Some(UrlParts("https", "example.com"))
    requires !env.putFails
    requires !HasProject(table, DefaultUserId, Str(ExampleUrl))
    ensures var out := Handle(parse, env, ExampleBody(), table);
            && StatusCode(out.reply) == 201 && Success(out.reply)
            && out.reply.project.status == "active"
            && out.reply.project.healthScore == 15
            && out.reply.project.userId == Str("default_user")
            && out.reply.project.category == Str("General")
            && out.reply.project.description == Str("")
            && out.reply.project.title == Str("Example")
  {
    var body := ExampleBody().fields;
    var req := ExtractRequest(body);
    assert req.websiteUrl == Str(ExampleUrl) && req.scrapedData == ExampleScraped;
    assert req.userId == DefaultUserId && req.category == DefaultCategory;
    ExamplePassesChecks(parse, req);
    ExampleScrapedScore();
    CreatedIff(parse, env, ExampleBody(), table);
  }

  /** A body without `websiteUrl` is rejected with 400 before anything else is looked at. */
  lemma MissingWebsiteUrlRejected(parse: UrlParser, env: Env, table: Table)
    ensures var out := Handle(parse, env, Obj(map["scrapedData" := Obj(map["url" := Str(ExampleUrl)])]), table);
            && out.reply == Rejected(MissingWebsiteUrl)
            && StatusCode(out.reply) == 400 && !Success(out.reply)
            && ErrorMessage(out.reply.reason) == "websiteUrl is required"
            && out.table == table
  {
    var body := map["scrapedData" := Obj(map["url" := Str(ExampleUrl)])];
    assert "websiteUrl" !in body;
    assert ExtractRequest(body).websiteUrl == Null;
  }

  /** `urlparse("not-a-url")` has neither scheme nor host, so the request is rejected with 400. */
  lemma MalformedUrlRejected(parse: UrlParser, env: Env, table: Table)
    requires parse("not-a-url") == Some(UrlParts("", ""))
    ensures var out := Handle(parse, env, Obj(map["websiteUrl" := Str("not-a-url"), "scrapedData" := ExampleScraped]), table);
            out.reply == Rejected(InvalidWebsiteUrl) && StatusCode(out.reply) == 400 && out.table == table
  {
    var body := map["websiteUrl" := Str("not-a-url"), "scrapedData" := ExampleScraped];
    var req := ExtractRequest(body);
    assert req.websiteUrl == Str("not-a-url") && req.scrapedData == ExampleScraped;
    assert |"not-a-url"| == 9;
    ExampleScrapedValid();
  }

  /** Two users register the same website on an empty table: both get 201. */
  lemma TwoUsersSameUrl(parse: UrlParser, env1: Env, env2: Env)
    requires parse(ExampleUrl) == Some(UrlParts("https", "example.com"))
    requires !env1.putFails && !env2.putFails
    ensures var body1 := Obj(map["websiteUrl" := Str(ExampleUrl), "scrapedData" := ExampleScraped, "userId" := Str("u1")]);
            var body2 := Obj(map["websiteUrl" := Str(ExampleUrl), "scrapedData" := ExampleScraped, "userId" := Str("u2")]);
            var first := Handle(parse, env1, body1, map[]);
            && first.reply.Created?
            && Handle(parse, env2, body2, first.table).reply.Created?
  {
    var body1 := map["websiteUrl" := Str(ExampleUrl), "scrapedData" := ExampleScraped, "userId" := Str("u1")];
    var body2 := map["websiteUrl" := Str(ExampleUrl), "scrapedData" := ExampleScraped, "userId" := Str("u2")];
    ExampleScrapedScore();
    ExampleUrlLength();
    var first := Handle(parse, env1, Obj(body1), map[]);
    ExampleUserCreates(parse, env1, body1, map[], "u1");
    assert Str("u1") != Str("u2") by { assert "u1"[1] != "u2"[1]; }
    var req2 := ExtractRequest(body2);
    ExampleUserRequest(body2, "u2");
    PutLeavesOtherUsers(map[], first.reply.project, req2.userId, req2.websiteUrl);
    ExampleUserCreates(parse, env2, body2, first.table, "u2");
  }

  /** The example request with a given user id. */
  lemma ExampleUserRequest(body: map<string, Value>, user: string)
    requires body == map["websiteUrl" := Str(ExampleUrl), "scrapedData" := ExampleScraped, "userId" := Str(user)]
    ensures ExtractRequest(body) == Request(Str(ExampleUrl), DefaultCategory, DefaultDescription, ExampleScraped, Str(user))
  {
  }

  /** The example request with a given user id is created wherever that user does not yet record the URL. */
  lemma ExampleUserCreates(parse: UrlParser, env: Env, body: map<string, Value>, table: Table, user: string)
    requires parse(ExampleUrl) == Some(UrlParts("https", "example.com"))
    requires !env.putFails
    requires body == map["websiteUrl" := Str(ExampleUrl), "scrapedData" := ExampleScraped, "userId" := Str(user)]
    requires !HasProject(table, Str(user), Str(ExampleUrl))
    ensures Handle(parse, env, Obj(body), table).reply.Created?
    ensures Handle(parse, env, Obj(body), table).reply.project.userId == Str(user)
  {
    ExampleUserRequest(body, user);
    ExamplePassesChecks(parse, ExtractRequest(body));
    ExampleScrapedScore();
    CreatedIff(parse, env, Obj(body), table);
  }
}

=== FILE: handler_properties.dfy ===
/**
 * Properties of `lambda_handler` that relate several invocations: the
 * user-scoped duplicate guard, what a failed query lets through, and the
 * stability of validation failures.
 */
module HandlerProperties {
  import opened Wrappers
  import opened Json
  import opened Validation
  import opened Health
  import opened Store
  import opened Projects
  import opened Handler

  /**
   * A 201 is given exactly to a dict body that passes the four checks, whose
   * user does not yet record the URL (or whose duplicate query raised), whose
   * scraped data can be scored, and whose write goes through.
   */
  lemma CreatedIff(parse: UrlParser, env: Env, body: Value, table: Table)
    ensures Handle(parse, env, body, table).reply.Created? <==>
              && body.Obj?
              && var req := ExtractRequest(body.fields);
              && FirstRejection(parse, req).None?
              && ValidateScrapedData(req.scrapedData) == Ok(true)
              && !CheckDuplicateProject(table, req.userId, req.websiteUrl, env.queryFails)
              && CalculateHealthScore(req.scrapedData).Ok?
              && !env.putFails
  {
  }

  /** Resubmitting a request that created a project is answered 409 and changes nothing. */
  lemma SecondCreateConflicts(parse: UrlParser, env: Env, env': Env, body: Value, table: Table)
    requires Handle(parse, env, body, table).reply.Created?
    requires !env'.queryFails
    ensures var after := Handle(parse, env, body, table).table;
            Handle(parse, env', body, after) == Outcome(Duplicate, after)
  {
    var out := Handle(parse, env, body, table);
    var p := out.reply.project;
    assert ItemKey(p) in out.table && out.table[ItemKey(p)] == p;
  }

  /**
   * The table enters the reply only through the duplicate check: two tables
   * that agree on whether the requesting user records the URL get the same reply.
   */
  lemma ReplyReadsOnlyDuplicateCheck(parse: UrlParser, env: Env, body: Value, t1: Table, t2: Table)
    requires body.Obj?
    requires HasProject(t1, ExtractRequest(body.fields).userId, ExtractRequest(body.fields).websiteUrl)
         == HasProject(t2, ExtractRequest(body.fields).userId, ExtractRequest(body.fields).websiteUrl)
    ensures Handle(parse, env, body, t1).reply == Handle(parse, env, body, t2).reply
  {
  }

  /**
   * A write for one user changes no reply for any other user. The write a 201
   * makes is such a write: `Handle` leaves `PutItem(table, p)` behind.
   */
  lemma OtherUsersUnaffected(parse: UrlParser, env: Env, body: Value, table: Table, p: Project)
    requires body.Obj?
    requires ExtractRequest(body.fields).userId != p.userId
    ensures Handle(parse, env, body, PutItem(table, p)).reply == Handle(parse, env, body, table).reply
  {
    var req := ExtractRequest(body.fields);
    PutLeavesOtherUsers(table, p, req.userId, req.websiteUrl);
    ReplyReadsOnlyDuplicateCheck(parse, env, body, PutItem(table, p), table);
  }

  /** While the duplicate query answers, the handler keeps every user's URLs unique. */
  lemma HandleKeepsUnique(parse: UrlParser, env: Env, body: Value, table: Table)
    requires UniquePerUser(table) && WellKeyed(table)
    requires !env.queryFails
    ensures UniquePerUser(Handle(parse, env, body, table).table)
    ensures WellKeyed(Handle(parse, env, body, table).table)
  {
    var out := Handle(parse, env, body, table);
    if out.reply.Created? {
      PutKeepsUnique(table, out.reply.project);
      PutKeepsWellKeyed(table, out.reply.project);
    }
  }

  /**
   * The duplicate check fails open: when the query raises, a second project for
   * the same user and URL is written.
   */
  lemma FailedQueryAdmitsDuplicate(parse: UrlParser, env: Env, body: Value, table: Table)
    requires body.Obj?
    requires HasProject(table, ExtractRequest(body.fields).userId, ExtractRequest(body.fields).websiteUrl)
    requires Handle(parse, env, body, table).reply.Created?
    requires ItemKey(Handle(parse, env, body, table).reply.project) !in table
    ensures env.queryFails
    ensures var out := Handle(parse, env, body, table);
            var req := ExtractRequest(body.fields);
            exists k1, k2 :: k1 in out.table && k2 in out.table && k1 != k2
              && k1.userId == req.userId && k2.userId == req.userId
              && out.table[k1].websiteUrl == req.websiteUrl && out.table[k2].websiteUrl == req.websiteUrl
    ensures !UniquePerUser(Handle(parse, env, body, table).table)
  {
    var out := Handle(parse, env, body, table);
    var req := ExtractRequest(body.fields);
    var p := out.reply.project;
    var k :| k in table && k.userId == req.userId && table[k].websiteUrl == req.websiteUrl;
    assert k != ItemKey(p) && k in out.table && out.table[k] == table[k];
    assert ItemKey(p) in out.table && out.table[ItemKey(p)] == p;
  }

  /**
   * There is no conditional write: a generated key that is already taken
   * replaces the stored item, and the table does not grow.
   */
  lemma IdCollisionOverwrites(parse: UrlParser, env: Env, body: Value, table: Table)
    requires Handle(parse, env, body, table).reply.Created?
    requires ItemKey(Handle(parse, env, body, table).reply.project) in table
    ensures var out := Handle(parse, env, body, table);
            out.table.Keys == table.Keys && out.table[ItemKey(out.reply.project)] == out.reply.project
  {
  }

  /**
   * A 400 depends on the body alone: the same body is rejected for the same
   * reason whatever the table holds and whatever the environment supplies, and
   * nothing is written.
   */
  lemma RejectionIsStable(parse: UrlParser, env: Env, body: Value, table: Table, env': Env, table': Table)
    requires Handle(parse, env, body, table).reply.Rejected?
    ensures Handle(parse, env', body, table') == Outcome(Handle(parse, env, body, table).reply, table')
  {
  }
}

=== FILE: health.dfy ===
/**
 * `calculate_health_score`: seven independent bonuses read from the scraped-data
 * dict, added up in source order and capped with `min(score, 100)`.
 */
module Health {
  import opened Wrappers
  import opened Json

  /** The seven scoring terms, one per `if` block of the source. */
  datatype Term = Status | Content | Title | Description | Links | Ssl | Framework

  /** The terms in the order the source evaluates them. */
  const Terms: seq<Term> := [Status, Content, Title, Description, Links, Ssl, Framework]

  /** The dict key each term reads. */
  function KeyOf(t: Term): string {
    match t
    case Status => "status_code"
    case Content => "content_length"
    case Title => "title"
    case Description => "description"
    case Links => "links_count"
    case Ssl => "has_ssl"
    case Framework => "framework_detection"
  }

  /** The default each term's `.get` supplies when its key is absent. */
  function DefaultOf(t: Term): Value {
    match t
    case Status => Int(0)
    case Content => Int(0)
    case Title => Null
    case Description => Null
    case Links => Int(0)
    case Ssl => Bool(false)
    case Framework => Obj(map[])
  }

  /** The keys the score looks at; every other key of the document is ignored. */
  const RecognisedKeys: set<string> :=
    {"status_code", "content_length", "title", "description", "links_count", "has_ssl", "framework_detection"}

  /** The largest bonus each term can award. */
  function MaxBonus(t: Term): nat {
    match t
    case Status => 20
    case Content => 20
    case Title => 15
    case Description => 10
    case Links => 15
    case Ssl => 10
    case Framework => 10
  }

  /** `any(framework_data.get(fw, False) for fw in ['react', 'vue', 'angular'])`. */
  predicate AnyFramework(fw: map<string, Value>) {
    || Truthy(Get(fw, "react", Bool(false)))
    || Truthy(Get(fw, "vue", Bool(false)))
    || Truthy(Get(fw, "angular", Bool(false)))
  }

  /**
   * `if v > high: big` / `elif v > low: small`. The first comparison raises
   * when `v` is not a number.
   */
  function TieredBonus(v: Value, high: int, low: int, big: nat, small: nat): (r: Result<nat, PyError>)
    requires low < high && small <= big
    ensures r.Ok? <==> AsNumber(v).Some?
    ensures r.Ok? && AsNumber(v).value > high ==> r.value == big
    ensures r.Ok? && low < AsNumber(v).value <= high ==> r.value == small
    ensures r.Ok? && AsNumber(v).value <= low ==> r.value == 0
  {
    match GreaterThan(v, high)
    case Err(e) => Err(e)
    case Ok(true) => Ok(big)
    case Ok(false) => Ok(if GreaterThan(v, low) == Ok(true) then small else 0)
  }

  /** The bonus a term awards for the value its `.get` returned. */
  function BonusFor(t: Term, v: Value): (r: Result<nat, PyError>)
    ensures r.Ok? ==> r.value <= MaxBonus(t)
  {
    match t
    case Status => Ok(if v == Int(200) then 20 else 0)
    case Content => TieredBonus(v, 1000, 500, 20, 10)
    case Title => Ok(if Truthy(v) then 15 else 0)
    case Description => Ok(if Truthy(v) then 10 else 0)
    case Links => TieredBonus(v, 10, 5, 15, 10)
    case Ssl => Ok(if Truthy(v) then 10 else 0)
    case Framework =>
      (match v
       case Obj(fw) => Ok(if AnyFramework(fw) then 10 else 0)
       case _ => Err(AttributeError("get")))
  }

  /** The bonus a term awards for a scraped-data dict. */
  function Bonus(t: Term, m: map<string, Value>): Result<nat, PyError> {
    BonusFor(t, Get(m, KeyOf(t), DefaultOf(t)))
  }

  /** The seven bonuses of a dict, in the order the source adds them up. */
  function Bonuses(m: map<string, Value>): (bs: seq<Result<nat, PyError>>)
    ensures |bs| == |Terms|
    ensures forall i :: 0 <= i < |Terms| ==> bs[i] == Bonus(Terms[i], m)
  {
    seq(|Terms|, i requires 0 <= i < |Terms| => Bonus(Terms[i], m))
  }

  /**
   * `score += bonus` over the bonuses in order, starting from 0; the first one
   * that raises aborts the whole computation.
   */
  function SumBonuses(bs: seq<Result<nat, PyError>>): (r: Result<nat, PyError>)
    ensures r.Ok? <==> forall i :: 0 <= i < |bs| ==> bs[i].Ok?
    ensures r.Err? ==> exists i :: 0 <= i < |bs| && bs[i] == r && forall j :: 0 <= j < i ==> bs[j].Ok?
    decreases |bs|
  {
    if bs == [] then Ok(0)
    else
      var b :- bs[0];
      var rest :- SumBonuses(bs[1..]);
      Ok(b + rest)
  }

  function Sum(ns: seq<nat>): nat {
    if ns == [] then 0 else ns[0] + Sum(ns[1..])
  }

  /** A sum of bonuses each within its cap is within the sum of the caps. */
  lemma {:induction false} SumWithinCaps(bs: seq<Result<nat, PyError>>, caps: seq<nat>)
    requires |bs| == |caps|
    requires forall i :: 0 <= i < |bs| && bs[i].Ok? ==> bs[i].value <= caps[i]
    ensures SumBonuses(bs).Ok? ==> SumBonuses(bs).value <= Sum(caps)
    decreases |bs|
  {
    if bs != [] {
      SumWithinCaps(bs[1..], caps[1..]);
    }
  }

  /** The largest bonus of each term, in source order. */
  function Caps(): (caps: seq<nat>)
    ensures |caps| == |Terms|
    ensures forall i :: 0 <= i < |Terms| ==> caps[i] == MaxBonus(Terms[i])
  {
    seq(|Terms|, i requires 0 <= i < |Terms| => MaxBonus(Terms[i]))
  }

  /** The caps add up to exactly 100. */
  lemma CapsAddUpToHundred()
    ensures Sum(Caps()) == 100
  {
    var c := Caps();
    assert c == [20, 20, 15, 10, 15, 10, 10];
    assert c[1..][1..][1..][1..][1..][1..][1..] == [];
  }

  /**
   * `calculate_health_score`: a dict's bonuses summed and capped at 100. The
   * cap never bites, because the bonuses add up to 100 at most. Anything but a
   * dict raises on the first `.get`, and a bonus that raises aborts the score.
   */
  function CalculateHealthScore(doc: Value): (r: Result<int, PyError>)
    ensures r.Ok? <==> doc.Obj? && forall i :: 0 <= i < |Terms| ==> Bonus(Terms[i], doc.fields).Ok?
    ensures r.Ok? ==> 0 <= r.value <= 100
    ensures r.Ok? ==> SumBonuses(Bonuses(doc.fields)) == Ok(r.value)
  {
    match doc
    case Obj(m) =>
      var bs := Bonuses(m);
      var score :- SumBonuses(bs);
      SumWithinCaps(bs, Caps());
      CapsAddUpToHundred();
      Ok(if score < 100 then score else 100)
    case _ => Err(AttributeError("get"))
  }
}

=== FILE: health_properties.dfy ===
/**
 * What `calculate_health_score` promises beyond its own contract: each term
 * adds exactly its own bonus, absent fields add nothing, unrecognised fields
 * are ignored, and the calculation raises exactly on the ill-typed fields.
 */
module HealthProperties {
  import opened Wrappers
  import opened Json
  import opened Health

  /** A fold of bonuses that all succeed is the plain sum of their values. */
  lemma {:induction false} SumOfValues(bs: seq<Result<nat, PyError>>, ns: seq<nat>)
    requires |bs| == |ns|
    requires forall i :: 0 <= i < |bs| ==> bs[i] == Ok(ns[i])
    ensures SumBonuses(bs) == Ok(Sum(ns))
    decreases |bs|
  {
    if bs != [] {
      SumOfValues(bs[1..], ns[1..]);
    }
  }

  /** A fold of bonuses that are all 0 is 0: `SumOfValues` on a list of zeros. */
  lemma {:induction false} SumOfZeros(bs: seq<Result<nat, PyError>>)
    requires forall i :: 0 <= i < |bs| ==> bs[i] == Ok(0)
    ensures SumBonuses(bs) == Ok(0)
  {
    var zeros: seq<nat> := seq(|bs|, _ => 0);
    SumOfValues(bs, zeros);
    SumOfZerosIsZero(zeros);
  }

  /** A plain sum of zeros is 0. */
  lemma {:induction false} SumOfZerosIsZero(ns: seq<nat>)
    requires forall i :: 0 <= i < |ns| ==> ns[i] == 0
    ensures Sum(ns) == 0
    decreases |ns|
  {
    if ns != [] {
      SumOfZerosIsZero(ns[1..]);
    }
  }

  /**
   * Two bonus lists that agree everywhere but at `j`, where the second has 0,
   * sum to totals that differ by exactly the first's bonus at `j`.
   */
  lemma {:induction false} SumBonusesReplace(bs: seq<Result<nat, PyError>>, bs': seq<Result<nat, PyError>>, j: nat)
    requires |bs| == |bs'| && j < |bs|
    requires forall i :: 0 <= i < |bs| && i != j ==> bs[i] == bs'[i]
    requires bs'[j] == Ok(0) && bs[j].Ok?
    requires SumBonuses(bs').Ok?
    ensures SumBonuses(bs) == Ok(SumBonuses(bs').value + bs[j].value)
    decreases |bs|
  {
    if j == 0 {
      assert bs[1..] == bs'[1..];
    } else {
      SumBonusesReplace(bs[1..], bs'[1..], j - 1);
    }
  }

  /** The position of a term in the evaluation order. */
  function Index(t: Term): (i: nat)
    ensures i < |Terms| && Terms[i] == t
    ensures forall j :: 0 <= j < |Terms| && Terms[j] == t ==> j == i
  {
    match t
    case Status => 0
    case Content => 1
    case Title => 2
    case Description => 3
    case Links => 4
    case Ssl => 5
    case Framework => 6
  }

  /** An absent field contributes nothing to its term. */
  lemma MissingFieldContributesNothing(t: Term, m: map<string, Value>)
    requires KeyOf(t) !in m
    ensures Bonus(t, m) == Ok(0)
  {
  }

  /** The terms read pairwise different keys. */
  lemma KeysDistinct(t: Term, u: Term)
    requires t != u
    ensures KeyOf(t) != KeyOf(u)
  {
  }

  /** Setting one term's field leaves every other term's bonus as it was. */
  lemma UpdateAgreesElsewhere(m: map<string, Value>, t: Term, v: Value)
    ensures forall u :: u != t ==> Bonus(u, m[KeyOf(t) := v]) == Bonus(u, m - {KeyOf(t)})
  {
    forall u | u != t
      ensures Bonus(u, m[KeyOf(t) := v]) == Bonus(u, m - {KeyOf(t)})
    {
      KeysDistinct(t, u);
    }
  }

  /**
   * Setting a term's field to `v` raises the sum of a dict lacking that field
   * by exactly the bonus `v` earns for that term.
   */
  lemma SumAfterUpdate(m: map<string, Value>, t: Term, v: Value)
    requires SumBonuses(Bonuses(m - {KeyOf(t)})).Ok?
    requires BonusFor(t, v).Ok?
    ensures SumBonuses(Bonuses(m[KeyOf(t) := v]))
            == Ok(SumBonuses(Bonuses(m - {KeyOf(t)})).value + BonusFor(t, v).value)
  {
    var with := Bonuses(m[KeyOf(t) := v]);
    var without := Bonuses(m - {KeyOf(t)});
    UpdateAgreesElsewhere(m, t, v);
    MissingFieldContributesNothing(t, m - {KeyOf(t)});
    SumBonusesReplace(with, without, Index(t));
  }

  /**
   * Setting a term's field to `v` raises the score of a dict lacking that field
   * by exactly the bonus `v` earns for that term, whatever the other fields hold.
   */
  lemma TermContribution(m: map<string, Value>, t: Term, v: Value)
    requires CalculateHealthScore(Obj(m - {KeyOf(t)})).Ok?
    requires BonusFor(t, v).Ok?
    ensures CalculateHealthScore(Obj(m[KeyOf(t) := v]))
            == Ok(CalculateHealthScore(Obj(m - {KeyOf(t)})).value + BonusFor(t, v).value)
  {
    SumAfterUpdate(m, t, v);
  }

  /** The content term is tiered: above 1000 characters adds 20, above 500 adds 10, otherwise 0. */
  lemma ContentTiers(m: map<string, Value>, n: int)
    requires CalculateHealthScore(Obj(m - {"content_length"})).Ok?
    ensures CalculateHealthScore(Obj(m["content_length" := Int(n)]))
            == Ok(CalculateHealthScore(Obj(m - {"content_length"})).value
                  + if n > 1000 then 20 else if n > 500 then 10 else 0)
  {
    TermContribution(m, Content, Int(n));
  }

  /** The links term is tiered: above 10 links adds 15, above 5 adds 10, otherwise 0. */
  lemma LinksTiers(m: map<string, Value>, n: int)
    requires CalculateHealthScore(Obj(m - {"links_count"})).Ok?
    ensures CalculateHealthScore(Obj(m["links_count" := Int(n)]))
            == Ok(CalculateHealthScore(Obj(m - {"links_count"})).value
                  + if n > 10 then 15 else if n > 5 then 10 else 0)
  {
    TermContribution(m, Links, Int(n));
  }

  /**
   * The framework bonus of 10 is awarded iff react, vue or angular is truthy,
   * and the term adds nothing otherwise.
   */
  lemma FrameworkBonusIff(m: map<string, Value>, fw: map<string, Value>)
    requires CalculateHealthScore(Obj(m - {"framework_detection"})).Ok?
    ensures CalculateHealthScore(Obj(m["framework_detection" := Obj(fw)]))
            == Ok(CalculateHealthScore(Obj(m - {"framework_detection"})).value
                  + if Truthy(Get(fw, "react", Bool(false)))
                       || Truthy(Get(fw, "vue", Bool(false)))
                       || Truthy(Get(fw, "angular", Bool(false)))
                    then 10 else 0)
  {
    TermContribution(m, Framework, Obj(fw));
  }

  /** A term earns nothing from a dict that holds none of the recognised keys. */
  lemma NoRecognisedKeyNoBonus(m: map<string, Value>, t: Term)
    requires forall k :: k in m ==> k !in RecognisedKeys
    ensures Bonus(t, m) == Ok(0)
  {
    assert KeyOf(t) in RecognisedKeys;
  }

  /** A document with none of the recognised fields scores 0 and does not raise. */
  lemma UnrecognisedDocScoresZero(m: map<string, Value>)
    requires forall k :: k in m ==> k !in RecognisedKeys
    ensures CalculateHealthScore(Obj(m)) == Ok(0)
  {
    forall i | 0 <= i < |Terms|
      ensures Bonuses(m)[i] == Ok(0)
    {
      NoRecognisedKeyNoBonus(m, Terms[i]);
    }
    SumOfZeros(Bonuses(m));
  }

  /** An unrecognised key is none of the keys the terms read. */
  lemma UnrecognisedKeyReadByNoTerm(k: string, t: Term)
    requires k !in RecognisedKeys
    ensures KeyOf(t) != k
  {
  }

  /** Extra fields are passed through without affecting the score. */
  lemma UnrecognisedKeyIgnored(m: map<string, Value>, k: string, v: Value)
    requires k !in RecognisedKeys
    ensures CalculateHealthScore(Obj(m[k := v])) == CalculateHealthScore(Obj(m))
  {
    forall i | 0 <= i < |Terms|
      ensures Bonuses(m[k := v])[i] == Bonuses(m)[i]
    {
      UnrecognisedKeyReadByNoTerm(k, Terms[i]);
    }
    assert Bonuses(m[k := v]) == Bonuses(m);
  }

  /** Which terms can raise, and on what: only the two comparisons and the framework `.get`. */
  lemma BonusDefinedIff(t: Term, m: map<string, Value>)
    ensures Bonus(t, m).Ok? <==>
              && (t == Content && KeyOf(t) in m ==> AsNumber(m[KeyOf(t)]).Some?)
              && (t == Links && KeyOf(t) in m ==> AsNumber(m[KeyOf(t)]).Some?)
              && (t == Framework && KeyOf(t) in m ==> m[KeyOf(t)].Obj?)
  {
  }

  /**
   * The calculation raises exactly when the document is not a dict, when
   * `content_length` or `links_count` is present but not a number, or when
   * `framework_detection` is present but not a dict.
   */
  lemma ScoreDefinedIff(doc: Value)
    ensures CalculateHealthScore(doc).Ok? <==>
              && doc.Obj?
              && ("content_length" in doc.fields ==> AsNumber(doc.fields["content_length"]).Some?)
              && ("links_count" in doc.fields ==> AsNumber(doc.fields["links_count"]).Some?)
              && ("framework_detection" in doc.fields ==> doc.fields["framework_detection"].Obj?)
  {
    if doc.Obj? {
      var m := doc.fields;
      forall i | 0 <= i < |Terms|
        ensures Bonus(Terms[i], m).Ok? <==>
                  && (Terms[i] == Content && KeyOf(Terms[i]) in m ==> AsNumber(m[KeyOf(Terms[i])]).Some?)
                  && (Terms[i] == Links && KeyOf(Terms[i]) in m ==> AsNumber(m[KeyOf(Terms[i])]).Some?)
                  && (Terms[i] == Framework && KeyOf(Terms[i]) in m ==> m[KeyOf(Terms[i])].Obj?)
      {
        BonusDefinedIff(Terms[i], m);
      }
      assert Terms[Index(Content)] == Content && Terms[Index(Links)] == Links;
      assert Terms[Index(Framework)] == Framework;
    }
  }

  /**
   * The condition under which a term earns its full bonus, read off the
   * source's `if` tests: the key is present and its value passes the test.
   */
  predicate MeetsCondition(t: Term, m: map<string, Value>) {
    match t
    case Status => "status_code" in m && m["status_code"] == Int(200)
    case Content =>
      "content_length" in m && AsNumber(m["content_length"]).Some? && AsNumber(m["content_length"]).value > 1000
    case Title => "title" in m && Truthy(m["title"])
    case Description => "description" in m && Truthy(m["description"])
    case Links =>
      "links_count" in m && AsNumber(m["links_count"]).Some? && AsNumber(m["links_count"]).value > 10
    case Ssl => "has_ssl" in m && Truthy(m["has_ssl"])
    case Framework =>
      "framework_detection" in m && m["framework_detection"].Obj?
      && AnyFramework(m["framework_detection"].fields)
  }

  /** A term earns its cap exactly when its condition holds. */
  lemma FullBonusIff(m: map<string, Value>, t: Term)
    ensures Bonus(t, m) == Ok(MaxBonus(t)) <==> MeetsCondition(t, m)
  {
    match t
    case Status =>
    case Content =>
    case Title =>
    case Description =>
    case Links =>
    case Ssl =>
    case Framework =>
  }

  /**
   * Sums are monotone in their summands. `Health.SumWithinCaps` bounds the
   * fold, whose terms may raise, and is what the score's upper bound rests on;
   * this is the same bound for plain sums, which the converse direction of
   * `PerfectScoreIff` needs once every term is known to succeed.
   */
  lemma {:induction false} SumMonotone(ns: seq<nat>, caps: seq<nat>)
    requires |ns| == |caps|
    requires forall i :: 0 <= i < |ns| ==> ns[i] <= caps[i]
    ensures Sum(ns) <= Sum(caps)
    decreases |ns|
  {
    if ns != [] {
      SumMonotone(ns[1..], caps[1..]);
    }
  }

  /** Summands each within their cap that add up to the caps' sum are at their caps. */
  lemma {:induction false} SumAtCaps(ns: seq<nat>, caps: seq<nat>)
    requires |ns| == |caps|
    requires forall i :: 0 <= i < |ns| ==> ns[i] <= caps[i]
    requires Sum(ns) == Sum(caps)
    ensures forall i :: 0 <= i < |ns| ==> ns[i] == caps[i]
    decreases |ns|
  {
    if ns != [] {
      SumMonotone(ns[1..], caps[1..]);
      SumAtCaps(ns[1..], caps[1..]);
      forall i | 1 <= i < |ns|
        ensures ns[i] == caps[i]
      {
        assert ns[i] == ns[1..][i - 1] && caps[i] == caps[1..][i - 1];
      }
    }
  }

  /** The values of bonuses that all succeeded. */
  function Values(bs: seq<Result<nat, PyError>>): (ns: seq<nat>)
    requires forall i :: 0 <= i < |bs| ==> bs[i].Ok?
    ensures |ns| == |bs|
    ensures forall i :: 0 <= i < |bs| ==> bs[i] == Ok(ns[i])
  {
    seq(|bs|, i requires 0 <= i < |bs| => bs[i].value)
  }

  /** When every condition holds, every term earns its cap and the score is 100. */
  lemma PerfectScoreIfEveryCondition(m: map<string, Value>)
    requires forall t :: MeetsCondition(t, m)
    ensures CalculateHealthScore(Obj(m)) == Ok(100)
  {
    forall i | 0 <= i < |Terms|
      ensures Bonuses(m)[i] == Ok(Caps()[i])
    {
      FullBonusIff(m, Terms[i]);
    }
    SumOfValues(Bonuses(m), Caps());
    CapsAddUpToHundred();
  }

  /** A score of 100 leaves no bonus short of its cap, so every condition holds. */
  lemma EveryConditionIfPerfectScore(m: map<string, Value>)
    requires CalculateHealthScore(Obj(m)) == Ok(100)
    ensures forall t :: MeetsCondition(t, m)
  {
    var bs := Bonuses(m);
    var ns := Values(bs);
    SumOfValues(bs, ns);
    CapsAddUpToHundred();
    SumAtCaps(ns, Caps());
    forall t
      ensures MeetsCondition(t, m)
    {
      var i := Index(t);
      assert bs[i] == Ok(MaxBonus(t));
      FullBonusIff(m, t);
    }
  }

  /**
   * The score reaches 100 exactly when the document is a dict that meets
   * every condition: status 200, more than 1000 characters of content, a
   * truthy title and description, more than 10 links, SSL, and a modern
   * framework.
   */
  lemma PerfectScoreIff(doc: Value)
    ensures CalculateHealthScore(doc) == Ok(100) <==> doc.Obj? && forall t :: MeetsCondition(t, doc.fields)
  {
    if doc.Obj? {
      if forall t :: MeetsCondition(t, doc.fields) {
        PerfectScoreIfEveryCondition(doc.fields);
      }
      if CalculateHealthScore(doc) == Ok(100) {
        EveryConditionIfPerfectScore(doc.fields);
      }
    }
  }
}

=== FILE: json.dfy ===
/**
 * The decoded request document, as the Python handler sees it after `json.loads`,
 * together with the few pieces of Python semantics the handler relies on:
 * truthiness, `dict.get` with a default, `>` against an integer and the `in`
 * operator.
 */
module Json {
  import opened Wrappers

  /** A JSON value. Numbers are integers; Python's `bool` is kept apart from them. */
  datatype Value =
    | Null
    | Bool(b: bool)
    | Int(n: int)
    | Str(s: string)
    | Arr(items: seq<Value>)
    | Obj(fields: map<string, Value>)

  /** The Python exceptions the modelled code can raise on an ill-typed document. */
  datatype PyError =
    | TypeError(operation: string)     // `>` or `in` applied to an unsupported type
    | AttributeError(attribute: string) // `.get` called on something that is not a dict

  /** Python truthiness: `None`, `False`, `0`, `""`, `[]` and `{}` are false. */
  predicate Truthy(v: Value) {
    match v
    case Null => false
    case Bool(b) => b
    case Int(n) => n != 0
    case Str(s) => s != []
    case Arr(xs) => xs != []
    case Obj(m) => m != map[]
  }

  /** `d.get(key, default)` on a dict. */
  function Get(m: map<string, Value>, key: string, default: Value): Value {
    if key in m then m[key] else default
  }

  /** The integer a value stands for in a comparison: `bool` is a subclass of `int`. */
  function AsNumber(v: Value): Option<int> {
    match v
    case Int(n) => Some(n)
    case Bool(b) => Some(if b then 1 else 0)
    case _ => None
  }

  /** Python `v > bound`; comparing `None`, a string, a list or a dict with an int raises. */
  function GreaterThan(v: Value, bound: int): (r: Result<bool, PyError>)
    ensures r.Ok? <==> AsNumber(v).Some?
    ensures r.Ok? ==> (r.value <==> AsNumber(v).value > bound)
  {
    match v
    case Int(n) => Ok(n > bound)
    case Bool(b) => Ok((if b then 1 else 0) > bound)
    case _ => Err(TypeError(">"))
  }

  /** True iff `needle` occurs as a contiguous run of `hay`. */
  predicate IsSubstring(needle: string, hay: string)
    decreases |hay|
  {
    |needle| <= |hay| && (hay[..|needle|] == needle || IsSubstring(needle, hay[1..]))
  }

  /** The positional definition of a substring, against which `IsSubstring` is checked. */
  ghost predicate OccursAt(needle: string, hay: string, i: int) {
    0 <= i && i + |needle| <= |hay| && hay[i..i + |needle|] == needle
  }

  /** A match in the tail of `hay` is a match in `hay`, one position further on. */
  lemma OccursInTail(needle: string, hay: string, i: int)
    requires |hay| > 0 && OccursAt(needle, hay[1..], i)
    ensures OccursAt(needle, hay, i + 1)
  {
    assert hay[1..][i..i + |needle|] == hay[i + 1..i + 1 + |needle|];
  }

  /** A match in `hay` past position 0 is a match in the tail of `hay`. */
  lemma OccursPastHead(needle: string, hay: string, i: int)
    requires OccursAt(needle, hay, i) && i > 0
    ensures OccursAt(needle, hay[1..], i - 1)
  {
    assert hay[1..][i - 1..i - 1 + |needle|] == hay[i..i + |needle|];
  }

  lemma {:induction false} IsSubstringIff(needle: string, hay: string)
    ensures IsSubstring(needle, hay) <==> exists i :: OccursAt(needle, hay, i)
    decreases |hay|
  {
    if |needle| > |hay| {
      assert forall i :: !OccursAt(needle, hay, i);
    } else if hay[..|needle|] == needle {
      assert OccursAt(needle, hay, 0);
    } else {
      IsSubstringIff(needle, hay[1..]);
      if IsSubstring(needle, hay[1..]) {
        var i :| OccursAt(needle, hay[1..], i);
        OccursInTail(needle, hay, i);
      } else if exists i :: OccursAt(needle, hay, i) {
        var i :| OccursAt(needle, hay, i);
        assert i != 0;
        OccursPastHead(needle, hay, i);
        assert false;
      }
    }
  }

  /**
   * Python `item in container` for a string item: key membership in a dict,
   * element equality in a list, substring in a string; an int or bool raises
   * because it is not iterable, and so does `None`.
   */
  function Contains(container: Value, item: string): (r: Result<bool, PyError>)
    ensures container.Obj? ==> r == Ok(item in container.fields)
    ensures container.Arr? ==> r == Ok(Str(item) in container.items)
    ensures container.Str? ==> r == Ok(IsSubstring(item, container.s))
    ensures r.Err? <==> container.Null? || container.Bool? || container.Int?
  {
    match container
    case Obj(m) => Ok(item in m)
    case Arr(xs) => Ok(Str(item) in xs)
    case Str(s) => Ok(IsSubstring(item, s))
    case _ => Err(TypeError("in"))
  }
}

=== FILE: projects.dfy ===
/**
 * `generate_project_id` and `create_project`: the identifier, the record and
 * the single unconditional write. The uuid and the clock are inputs, so the
 * whole step is deterministic.
 */
module Projects {
  import opened Wrappers
  import opened Json
  import opened Health
  import opened Store

  /** What the environment supplies to one invocation. */
  datatype Env = Env(
    uuidHex: string,    // `uuid.uuid4().hex`
    clock: string,      // `datetime.utcnow().isoformat()`
    queryFails: bool,   // `table.query` raises
    putFails: bool)     // `table.put_item` raises

  /** Why an invocation ended in the catch-all 500 handler. */
  datatype Fault =
    | Raised(error: PyError)  // the handler's own code raised
    | WriteFailed             // `table.put_item` raised

  const IdPrefix: string := "project_"
  const IdSuffixLength: nat := 12

  /** Python's `s[:n]`: at most the first `n` characters. */
  function PrefixUpTo(s: string, n: nat): (p: string)
    ensures |p| == if |s| < n then |s| else n
    ensures p <= s
  {
    if |s| < n then s else s[..n]
  }

  predicate IsLowerHexDigit(c: char) {
    '0' <= c <= '9' || 'a' <= c <= 'f'
  }

  /** The shape of `uuid.UUID.hex`: 32 lower-case hexadecimal digits. */
  predicate IsUuidHex(s: string) {
    |s| == 32 && forall i :: 0 <= i < |s| ==> IsLowerHexDigit(s[i])
  }

  /** `generate_project_id`: `"project_"` followed by the first 12 characters of the uuid hex. */
  function GenerateProjectId(uuidHex: string): (id: string)
    ensures IdPrefix <= id
    ensures |uuidHex| >= IdSuffixLength ==> |id| == |IdPrefix| + IdSuffixLength
    ensures id[|IdPrefix|..] <= uuidHex
  {
    IdPrefix + PrefixUpTo(uuidHex, IdSuffixLength)
  }

  /** The suffix of an identifier: the inverse of `GenerateProjectId` on the uuid's first 12 characters. */
  function IdSuffix(id: string): string
    requires IdPrefix <= id
  {
    id[|IdPrefix|..]
  }

  /**
   * A uuid-derived identifier is 20 characters long: `project_` followed by
   * 12 lower-case hex digits, which are the first 12 characters of the uuid.
   */
  lemma GeneratedIdShape(uuidHex: string)
    requires IsUuidHex(uuidHex)
    ensures |GenerateProjectId(uuidHex)| == 20
    ensures forall i :: |IdPrefix| <= i < 20 ==> IsLowerHexDigit(GenerateProjectId(uuidHex)[i])
    ensures IdSuffix(GenerateProjectId(uuidHex)) == uuidHex[..12]
  {
    var id := GenerateProjectId(uuidHex);
    assert id[|IdPrefix|..] == uuidHex[..12];
    forall i | |IdPrefix| <= i < 20
      ensures IsLowerHexDigit(id[i])
    {
      assert id[i] == uuidHex[i - |IdPrefix|];
    }
  }

  /** Two uuids give the same identifier iff they agree on their first 12 characters. */
  lemma GeneratedIdInjective(u1: string, u2: string)
    requires |u1| >= 12 && |u2| >= 12
    ensures GenerateProjectId(u1) == GenerateProjectId(u2) <==> u1[..12] == u2[..12]
  {
    if GenerateProjectId(u1) == GenerateProjectId(u2) {
      assert IdSuffix(GenerateProjectId(u1)) == u1[..12];
      assert IdSuffix(GenerateProjectId(u2)) == u2[..12];
    }
  }

  /** `datetime.utcnow().isoformat() + 'Z'`. */
  function Timestamp(env: Env): string {
    env.clock + "Z"
  }

  /**
   * `create_project`: build the item and put it. The score is computed before
   * the write, so a score that raises leaves the table as it was, and so does a
   * write that raises.
   */
  function CreateProject(env: Env, table: Table, userId: Value, websiteUrl: Value,
                         category: Value, description: Value, scrapedData: Value)
    : (r: Result<(Project, Table), Fault>)
    ensures r.Ok? <==> CalculateHealthScore(scrapedData).Ok? && !env.putFails
    ensures CalculateHealthScore(scrapedData).Err? ==> r == Err(Raised(CalculateHealthScore(scrapedData).error))
    ensures CalculateHealthScore(scrapedData).Ok? && env.putFails ==> r == Err(WriteFailed)
    ensures r.Ok? ==>
              var p := r.value.0;
              && p.status == "active"
              && p.createdAt == p.updatedAt == p.lastChecked == Timestamp(env)
              && CalculateHealthScore(scrapedData) == Ok(p.healthScore)
              && 0 <= p.healthScore <= 100
              && p.userId == userId && p.websiteUrl == websiteUrl
              && p.category == category && p.description == description
              && p.scrapedData == scrapedData
              && p.projectId == GenerateProjectId(env.uuidHex)
              && p.title == Get(scrapedData.fields, "title", websiteUrl)
    ensures r.Ok? ==> r.value.1 == PutItem(table, r.value.0)
  {
    var projectId := GenerateProjectId(env.uuidHex);
    var now := Timestamp(env);
    var healthScore :- CalculateHealthScore(scrapedData).MapError(e => Raised(e));
    var item := Project(
      userId := userId,
      projectId := projectId,
      websiteUrl := websiteUrl,
      category := category,
      description := description,
      title := Get(scrapedData.fields, "title", websiteUrl),
      healthScore := healthScore,
      lastChecked := now,
      status := "active",
      createdAt := now,
      updatedAt := now,
      scrapedData := scrapedData);
    if env.putFails then Err(WriteFailed)
    else Ok((item, PutItem(table, item)))
  }
}

=== FILE: store.dfy ===
/**
 * The DynamoDB table as an abstract value: items keyed by the composite
 * primary key `(user_id, project_id)`. `table.put_item` and the user-scoped
 * `table.query` of `check_duplicate_project` are modelled by their effect.
 */
module Store {
  import opened Json

  /** The composite primary key: partition key `user_id`, sort key `project_id`. */
  datatype Key = Key(userId: Value, projectId: string)

  /** A project item, with the attributes `create_project` writes. */
  datatype Project = Project(
    userId: Value,
    projectId: string,
    websiteUrl: Value,
    category: Value,
    description: Value,
    title: Value,
    healthScore: int,
    lastChecked: string,
    status: string,
    createdAt: string,
    updatedAt: string,
    scrapedData: Value)

  type Table = map<Key, Project>

  /** The key an item is stored under. */
  function ItemKey(p: Project): Key {
    Key(p.userId, p.projectId)
  }

  /** Every item sits under its own key. */
  ghost predicate WellKeyed(table: Table) {
    forall k :: k in table ==> ItemKey(table[k]) == k
  }

  /** Some item of `user` records `url`. */
  predicate HasProject(table: Table, user: Value, url: Value) {
    exists k :: k in table && k.userId == user && table[k].websiteUrl == url
  }

  /** At most one item per user and website URL. */
  ghost predicate UniquePerUser(table: Table) {
    forall k1, k2 ::
      k1 in table && k2 in table && k1 != k2 && k1.userId == k2.userId
      ==> table[k1].websiteUrl != table[k2].websiteUrl
  }

  /**
   * `table.put_item(Item=item)`: unconditional. An item already stored under
   * the same key is replaced, not reported.
   */
  function PutItem(table: Table, item: Project): (t: Table)
    ensures ItemKey(item) in t && t[ItemKey(item)] == item
    ensures t.Keys == table.Keys + {ItemKey(item)}
    ensures forall k :: k in table && k != ItemKey(item) ==> t[k] == table[k]
  {
    table[ItemKey(item) := item]
  }

  /**
   * `table.query` with key condition `user_id = :user_id` and filter
   * `website_url = :website_url`: the items of the user's partition that
   * record the URL.
   */
  function QueryUserUrl(table: Table, user: Value, url: Value): (items: set<Project>)
    ensures forall k :: k in table && k.userId == user && table[k].websiteUrl == url ==> table[k] in items
    ensures forall p :: p in items ==> p.websiteUrl == url && exists k :: k in table && k.userId == user && table[k] == p
  {
    set k | k in table && k.userId == user && table[k].websiteUrl == url :: table[k]
  }

  /**
   * `check_duplicate_project`: true iff the query returns an item. A query
   * that raises (`queryFails`) is logged and answered with `False`: the check
   * fails open.
   */
  function CheckDuplicateProject(table: Table, user: Value, url: Value, queryFails: bool): (duplicate: bool)
    ensures duplicate <==> !queryFails && HasProject(table, user, url)
  {
    if queryFails then false
    else
      var items := QueryUserUrl(table, user, url);
      assert HasProject(table, user, url) ==> items != {} by {
        if HasProject(table, user, url) {
          var k :| k in table && k.userId == user && table[k].websiteUrl == url;
          assert table[k] in items;
        }
      }
      |items| > 0
  }

  /** Putting an item whose user does not yet record its URL keeps users' URLs unique. */
  lemma PutKeepsUnique(table: Table, item: Project)
    requires UniquePerUser(table)
    requires !HasProject(table, item.userId, item.websiteUrl)
    ensures UniquePerUser(PutItem(table, item))
  {
    var t := PutItem(table, item);
    forall k1, k2 | k1 in t && k2 in t && k1 != k2 && k1.userId == k2.userId
      ensures t[k1].websiteUrl != t[k2].websiteUrl
    {
      if k1 == ItemKey(item) {
        assert k2 in table && t[k2] == table[k2];
      } else if k2 == ItemKey(item) {
        assert k1 in table && t[k1] == table[k1];
      }
    }
  }

  /** Putting an item keeps every item under its own key. */
  lemma PutKeepsWellKeyed(table: Table, item: Project)
    requires WellKeyed(table)
    ensures WellKeyed(PutItem(table, item))
  {
  }

  /** Putting an item leaves every other user's items untouched. */
  lemma PutLeavesOtherUsers(table: Table, item: Project, user: Value, url: Value)
    requires user != item.userId
    ensures HasProject(PutItem(table, item), user, url) <==> HasProject(table, user, url)
  {
    var t := PutItem(table, item);
    if HasProject(t, user, url) {
      var k :| k in t && k.userId == user && t[k].websiteUrl == url;
      assert k in table && table[k] == t[k];
    }
    if HasProject(table, user, url) {
      var k :| k in table && k.userId == user && table[k].websiteUrl == url;
      assert k in t && t[k] == table[k];
    }
  }
}

=== FILE: validation.dfy ===
/**
 * The two validators of lambda_function.py: `validate_url` and
 * `validate_scraped_data`.
 */
module Validation {
  import opened Wrappers
  import opened Json

  /** The two components of `urllib.parse.urlparse` the handler looks at. */
  datatype UrlParts = UrlParts(scheme: string, netloc: string)

  /**
   * `urlparse` itself, left uninterpreted: `None` stands for the call raising
   * (for instance on a malformed IPv6 host).
   */
  type UrlParser = string -> Option<UrlParts>

  /**
   * `validate_url`: the URL parses and both its scheme and its network
   * location are non-empty. A non-string argument makes `urlparse` raise,
   * and the bare `except` turns every exception into `False`.
   */
  function ValidateUrl(parse: UrlParser, url: Value): (ok: bool)
    ensures ok <==> url.Str? && parse(url.s).Some?
                    && parse(url.s).value.scheme != [] && parse(url.s).value.netloc != []
  {
    match url
    case Str(s) =>
      (match parse(s)
       case Some(parts) => parts.scheme != [] && parts.netloc != []
       case None => false)
    case _ => false
  }

  /** The keys `validate_scraped_data` requires, in the order it tests them. */
  const RequiredFields: seq<string> := ["url", "title", "content"]

  /**
   * `validate_scraped_data`: `all(field in data for field in required_fields)`.
   * `all` stops at the first false membership test; a membership test on an int
   * or a bool raises before any answer is given.
   */
  function ValidateScrapedData(data: Value): (r: Result<bool, PyError>)
    ensures r.Err? <==> data.Null? || data.Bool? || data.Int?
    ensures r.Ok? ==> (r.value <==> forall f :: f in RequiredFields ==> Contains(data, f) == Ok(true))
    ensures data.Obj? ==>
              (r == Ok(true) <==> forall f :: f in RequiredFields ==> f in data.fields)
  {
    AllContained(data, RequiredFields)
  }

  /** `all(field in data for field in fields)`, evaluated left to right. */
  function AllContained(data: Value, fields: seq<string>): (r: Result<bool, PyError>)
    requires fields != []
    ensures r.Err? <==> Contains(data, fields[0]).Err?
    ensures r.Ok? ==> (r.value <==> forall i :: 0 <= i < |fields| ==> Contains(data, fields[i]) == Ok(true))
    decreases |fields|
  {
    match Contains(data, fields[0])
    case Err(e) => Err(e)
    case Ok(false) => Ok(false)
    case Ok(true) =>
      if |fields| == 1 then Ok(true)
      else
        var rest := AllContained(data, fields[1..]);
        assert Contains(data, fields[1]).Ok?;
        rest
  }

  /** Only the keys matter: a dict with url, title and content passes whatever they hold, even `None`. */
  lemma ValidScrapedDataIgnoresValues(m: map<string, Value>)
    requires "url" in m && "title" in m && "content" in m
    ensures ValidateScrapedData(Obj(m)) == Ok(true)
  {
  }

  /** The URL check does not restrict the scheme: any scheme with a host passes, `ftp` included. */
  lemma AnySchemeAccepted(parse: UrlParser, url: string)
    requires parse(url) == Some(UrlParts("ftp", "example.com"))
    ensures ValidateUrl(parse, Str(url))
  {
  }
}

=== FILE: wrappers.dfy ===
/** Failure-compatible wrappers used throughout the model. */
module Wrappers {

  /** A value that may be absent. */
  datatype Option<+T> = None | Some(value: T)

  /** Either a value or the error that stopped the computation. */
  datatype Result<+T, +E> = Ok(value: T) | Err(error: E) {
    predicate IsFailure() {
      Err?
    }

    function PropagateFailure<U>(): Result<U, E>
      requires Err?
    {
      Err(error)
    }

    function Extract(): T
      requires Ok?
    {
      value
    }

    /** The same result with its error converted. */
    function MapError<F>(convert: E -> F): Result<T, F>
    {
      match this
      case Ok(v) => Ok(v)
      case Err(e) => Err(convert(e))
    }
  }
}
